=== FILE: README.md ===
# cassobjects: model classes, column-family metadata and the immutable dictionary

This Dafny project models the pure logic of an early revision of
cassobjects, an object-mapping layer over a wide-column store. It has three
parts:

- **Models** (`models.dfy`) covers `src/cassobjects/models.py`.
  - The column constructor sorts its positional arguments into `(alias, type)` or `(type)` and rejects anything else.
  - Finalising a standard model class attaches the `get_by_<attr>` and `get_one_by_<attr>` lookups to every indexed column. It checks the `__indexes__` list, captures the pool and defaults the column-family name to the lower-cased class name.
  - `declare_model` keeps one connection pool per keyspace.

  A class is an explicit `ClassDecl`: its name, its attributes in dictionary order (an attribute named `pool` among them), and the optional `__indexes__` and `__column_family__` entries. There is no metaclass machinery.
- **Builder** (`builder.dfy`) covers `src/cassobjects/builder.py`. It computes what `Builder.create` would send to the store, but makes no store calls.
  - The class's pool, declared or inherited, must be a connection pool.
  - A family that already exists in the pool's keyspace is skipped unless `force` is set.
  - Exactly one primary key is required.
  - The validation-class map is keyed by wire names, where the wire name is `alias or attr`.
  - There is an index map over the indexed columns.
  - Secondary indexes are named `<cf>_<name>_index`.

  A batch of classes stops at the first error. A family planned earlier in the batch counts as existing in its keyspace for the classes after it.
- **ImmutableDicts** (`utils.dfy`) covers the `immutabledict` of `src/cassobjects/utils.py`.
  - Construction from zero or one source.
  - Rejected mutators.
  - The pickling reduction and its round trip.
  - The right-biased `union`.

`results.dfy` holds the small `Option`/`Result` datatypes. `store_types.dfy` lists the store's column types that `types.py` re-exports, plus one case for any other subclass of the store's base column type.

The store's table from column type to validation class (`TYPE_TABLE`) is
imported from `types.py`, which does not define it. It is a parameter `tt` of the builder
functions and is left uninterpreted. The column families the store already
holds are the input set `existing` of (keyspace, family) pairs.

Some behaviour of the code is worth stating plainly:

- The column constructor does not check the column type after a string alias. Any second argument becomes the column type.
- The constructor reads only the `index` and `primary_key` options.
- `__indexes__` is rejected whenever it is non-empty, although the error text at models.py:78-79 says the listed names "are not declared as fields". See Findings.
- Any class attribute named `pool` becomes the class's pool at models.py:67-69, whatever its value. A class body may also set `__pool__` directly. The builder reads `klass.__pool__`, so that value is used when there is no `pool` attribute. A column named `pool` therefore becomes the class's pool, and the builder then fails on it.
- A standard class with no pool, or with a pool that is not a connection pool, fails at builder.py:55-56 with the host language's missing-attribute error. The model names this error `NoPool`.
- Attaching a lookup replaces any class attribute of the same name. A column declared as `get_by_x` next to an indexed column `x` is therefore not a column of the finished class.

Python's `alias or attr` treats an empty alias as absent. `WireName` does the same.

## Model

| member | source | states |
|---|---|---|
| Models.NewColumn | src/cassobjects/models.py:41-51 | A string first argument gives alias = that string and type = the second argument. A store type gives no alias and that type. Any other class fails with `UnrecognizedParameter` carrying the argument, and no column is produced. `index`/`primary_key` are true exactly when supplied as true, and false when omitted. |
| Models.ColumnRoundTrip | src/cassobjects/models.py:44-49 | Every aliased column, and every unaliased column with a store type, is rebuilt exactly from its own `(alias, type)` or `(type)` arguments and flags. |
| Models.LookupNamesInjective | src/cassobjects/models.py:75-76 | `get_by_<a>` determines `a`, and so does `get_one_by_<a>`. A `get_by_` name never equals a `get_one_by_` name, so attached lookups cannot overwrite one another. |
| Models.LookupsExact | src/cassobjects/models.py:72-76 | Each indexed Column attribute gets `get_by_<attr>` bound to `GetBy(attr)` and `get_one_by_<attr>` bound to `GetOneBy(attr)`. Every attached lookup belongs to some indexed Column attribute. Non-indexed and non-Column attributes get none. |
| Models.Without | src/cassobjects/models.py:75-76 | The attributes kept are exactly those whose names are not replaced. |
| Models.DeclaredPool | src/cassobjects/models.py:67-69 | The class's own `__pool__` is the value of its `pool` attribute when it has one, whatever that value is. Failing that, it is the value of an attribute named `__pool__`. There is none exactly when neither name is declared. |
| Models.Finalised | src/cassobjects/models.py:67-82 | The class's pool is its own `__pool__` when it declares one, through a `pool` or a `__pool__` attribute, and the inherited pool otherwise. Its column family is the declared `__column_family__`, else `Lower(name)`. Its lookups are exactly those of the indexed columns. Its attributes are exactly the declared ones whose names no lookup has taken. |
| Models.LookupReplacesAttribute | src/cassobjects/models.py:72-76 | With an indexed column `x` and a column named `get_by_x`, only `x` remains an attribute of the class. |
| Models.FinaliseAsWritten | src/cassobjects/models.py:71-79 | Finalisation fails exactly when `__indexes__` is non-empty. The error carries the whole list, because nothing is removed from it before the check. Otherwise the result is the finalised class. |
| Models.Undeclared | src/cassobjects/models.py:77-79 | The names kept are exactly the listed names that are not Column attributes. |
| Models.Finalise | src/cassobjects/models.py:71-79 | Corrected finalisation. It succeeds exactly when every `__indexes__` name is a Column attribute. Otherwise the error lists exactly the names that are not. |
| Models.FinaliseAgreesWithoutIndexList | src/cassobjects/models.py:71-77 | Without an `__indexes__` list, both finalisations succeed and agree. |
| Models.DeclaredIndexStillRejected | src/cassobjects/models.py:71-79 | `__indexes__ = ['email']` with an indexed column `email` is rejected as written and accepted by the corrected finalisation. |
| Models.ListedPlainColumnAccepted | src/cassobjects/models.py:72-79 | A listed column without `index` is accepted by the corrected finalisation and gets no lookup. |
| Models.Lower | src/cassobjects/models.py:82 | The lower-cased class name has the same length. It contains no upper-case ASCII letter, maps each upper-case letter to its lower-case form and keeps every other character. |
| Models.LowerIdempotent | src/cassobjects/models.py:82 | Lower-casing a default column-family name again changes nothing. |
| Models.DeclareModel | src/cassobjects/models.py:156-160 | The pool table keeps an existing pool for the keyspace, or else stores a new pool for it. Other keyspaces' entries are unchanged. A MetaModel base class, finalised as the metaclass does it, carries the stored pool, has no lookups and uses the lower-cased name as its family. |
| Models.DeclareModelReusesPool | src/cassobjects/models.py:159-160 | A second declaration for the same keyspace, with any hosts, leaves the pool table as it was and reuses the first pool. |
| Models.DeclareDefaultModel | src/cassobjects/models.py:156-160 | With every argument defaulted, the base class is a standard model named `Model` with family `model`. It uses the pool for keyspace `Keyspace`, which is new with hosts `localhost:9160` unless one already exists. |
| Builder.WireNameOfConstructed | src/cassobjects/builder.py:68 | A column built with a non-empty string alias is written under that alias. Without an alias, or with an empty one, it is written under its attribute name. |
| Builder.IndexNameInjective | src/cassobjects/builder.py:85-87 | Within one column family, distinct wire names get distinct secondary-index names. |
| Builder.ScanPrimary | src/cassobjects/builder.py:66-73 | The loop stops exactly when a second primary-key column appears. Otherwise it holds a primary key exactly when it has seen one. |
| Builder.ScanKeys | src/cassobjects/builder.py:66-76 | The validation-class map is keyed by exactly the wire names of all columns. The index map is keyed by exactly the wire names of the indexed columns. |
| Builder.ScanValidationValues | src/cassobjects/builder.py:76 | Each wire name maps to the type-table value of the last column, in dictionary order, that has that wire name. |
| Builder.ScanIndexValues | src/cassobjects/builder.py:74-75 | Each indexed wire name maps to the type-table value of the last indexed column that has that wire name. |
| Builder.DistinctIndexesAgree | src/cassobjects/builder.py:74-76 | With distinct wire names, the index map agrees with the validation-class map on every shared key. |
| Builder.PlanFor | src/cassobjects/builder.py:63-87 | A plan exactly when there is one primary key, `MultiplePrimary` for two or more, and `NoPrimary` for none. The plan is in the given keyspace and the class's family. Its keys and values are as above, its index keys are among its validation keys, and every index is named `cf + "_" + n + "_index"`. |
| Builder.CreateMetamodel | src/cassobjects/builder.py:53-87 | `NoPool` exactly when the class's pool is missing or is not a connection pool. Skip exactly when the family exists in the pool's keyspace and `force` is false. Otherwise there is a plan exactly when there is one primary key, `MultiplePrimary` for two or more, and `NoPrimary` for none. The plan's keyspace is the pool's and its family is the class's. Its keys and values are as above. Index keys are a subset of validation keys. Every index is named `cf + "_" + n + "_index"`. |
| Builder.Create | src/cassobjects/builder.py:29-41 | There are at most as many plans as classes, and fewer when the batch fails. A batch without failure contains no non-model argument. A `NotRecognized` failure names a non-model argument in the batch. A `NoPool` failure names a standard class in the batch whose pool is missing or is not a connection pool. Without `force`, no plan targets a (keyspace, family) pair that exists, and no pair is planned twice. |
| Builder.CreateFailureExact | src/cassobjects/builder.py:34-41 | A failing batch fails at one class. The classes before it succeed and form every plan. That class alone, seeing their families as existing, raises the batch's error and plans nothing. |
| Builder.ColumnNamedPool | src/cassobjects/builder.py:55-56 | A column attribute named `pool` replaces an inherited connection pool, and the metadata step then fails with `NoPool`. |
| Builder.OwnPoolEntries | src/cassobjects/builder.py:53-58 | A class body that sets `__pool__` to a pool on `K2` is planned in `K2`, not in its base's keyspace. When both `pool` and `__pool__` are set, `pool` is used. |
| Builder.SameFamilyTwoKeyspaces | src/cassobjects/builder.py:55-59 | Two classes with family `user`, one pooled on keyspace `K1` and one on `K2`, give two plans, one in each keyspace. |
| Builder.CreateStopsAtFailure | src/cassobjects/builder.py:34-41 | After the first failure, later classes change nothing. |
| Builder.CreateConcat | src/cassobjects/builder.py:34-41 | A batch that succeeds on its first classes continues with the rest. The families planned so far then count as existing. |
| ImmutableDicts.UpdateWithPairsExact | src/cassobjects/utils.py:19-22 | Building or updating from pairs keeps the old keys and adds the pairs' keys. Each added key gets the value of its last pair, and other keys keep their values. |
| ImmutableDicts.UpdateWithPairsIsMerge | src/cassobjects/utils.py:35 | Updating with pairs equals merging in the dictionary those pairs build. |
| ImmutableDicts.New | src/cassobjects/utils.py:19-25 | No argument gives an empty dictionary. One mapping gives exactly that mapping's pairs. One pair sequence gives its keys, each with its last value. More arguments fail. |
| ImmutableDicts.Mutate | src/cassobjects/utils.py:8-17 | Item assignment or deletion, attribute assignment, `clear`, `pop`, `popitem`, `setdefault` and `update` each raise "immutabledict object is immutable" and leave the contents unchanged. |
| ImmutableDicts.Reduce | src/cassobjects/utils.py:27-28 | Pickling records exactly one constructor argument. |
| ImmutableDicts.ReduceRoundTrip | src/cassobjects/utils.py:27-28 | Calling the constructor on the pickled arguments gives a dictionary equal to the original. |
| ImmutableDicts.Union | src/cassobjects/utils.py:30-36 | The keys are the union of both key sets. The argument's value wins on a shared key and the receiver's values are kept elsewhere. An empty receiver gives exactly the argument's contents. |
| ImmutableDicts.RawUpdate | src/cassobjects/utils.py:35 | The plain update applied to the copy equals the right-biased merge with the argument's contents. |

## Left out

- Store I/O is not modelled: column-family reads (`get`, `multiget`, `get_count`, `multiget_count`, `get_range`), the system-manager connection, keyspace listing, `create_column_family`, `create_index` and `close`, and connection-pool construction. The existing families are an input set. A plan stands for the calls that would be made.
- `get_by`, `get_one_by`, `insert`, `get_one_by_rowkey`, `relationship`, `_create_metatimestampedmodel` and `_create_relation` are stubs without behaviour. They are left out, apart from the lookups that bind `get_by`/`get_one_by` to an attribute name.
- The contents of the type table and the store's type classes are foreign. The table is the uninterpreted parameter `tt`. A missing table entry, which raises `KeyError` in the source, is not modelled.
- Python's dictionary iteration order is the order of the attribute sequence given. The value properties say which column wins for each order, and `DistinctIndexesAgree` holds for every order.
- Host-language failures of malformed column calls are the precondition `Classifiable`. These are no arguments, a string alias without a type, or a non-class first argument hitting `issubclass`.
- `Models.Finalised`, `Models.FinaliseAsWritten` and `Models.Finalise` require a well-formed declaration (`WellFormed`). Its attribute names are distinct, as the keys of a class dictionary are. The `__indexes__` and `__column_family__` entries are given in their own fields, not among the attributes, and are taken to be a list of strings and a string.
- `__indexes__` is taken to be a list of strings, and the `index` and `primary_key` options to be booleans. Python truthiness of other values is not modelled.
- `Models.Lower` lower-cases ASCII letters only. Python's Unicode case mapping of non-ASCII class names is not modelled.
- `Models.DeclareModel` builds a new pool value only when the keyspace has none. The source constructs, and discards, a connection pool on every call, which is a side effect outside the model.
- The store's column-family listing for a keyspace it does not hold is not modelled. Such a keyspace is taken to hold no families.
- A pool value other than a connection pool or a column is taken to have no server list. Objects that happen to carry one are not modelled.
- Connecting to the first server of the pool is not modelled. An empty server list, which fails in the source, is not distinguished.
- `Models.DeclareModel` does not model the `cls` parameter, the base class of the new class. Inheritance is modelled only for the pool, through the `inherited` argument of finalisation.
- `Builder.Create` with `force` on an existing family plans a creation that the store would reject. That store error is not modelled.
- `ImmutableDicts.Union`: that the receiver is left untouched holds by construction, because dictionaries are values here. No separate contract states it.
- Attribute deletion on `immutabledict` is not overridden in the source. It is not modelled, and neither is `__repr__`.
- Error messages carry the class name rather than the class's `repr`.
- `setup.py` is packaging metadata and is not modelled.

## Findings

| source | as written | input that shows it | evidently intended | confidence | as-written member | corrected member |
|---|---|---|---|---|---|---|
| src/cassobjects/models.py:71-79 | `if indexes:` raises whenever `__indexes__` is non-empty. No name is ever removed from the list, although the error says the listed indexes "are not declared as fields", and the `get_by` docstring at models.py:86-87 expects indexed properties to be listed in `__indexes__`. | `email = Column(UTF8Type, index=True)` with `__indexes__ = ['email']` | Reject only the listed names that are not Column attributes, as the error text says. Listing a column does not make it indexed. | medium, not executed | Models.FinaliseAsWritten, Models.DeclaredIndexStillRejected | Models.Finalise |

=== FILE: builder.dfy ===
/** Column-family metadata for model classes (src/cassobjects/builder.py).

    The store calls are left out: what remains decides, per class, whether a
    column family is skipped, rejected or planned, and what the plan holds
    (the validation class of every column, the secondary indexes and their
    names). The store's table from column type to validation class is a
    parameter `tt`, and the column families the store already holds are the
    set `existing` of (keyspace, family) pairs. */
module Builder {
  import opened Results
  import opened StoreTypes
  import opened Models

  /** A validation class name as the store knows it. */
  datatype ValidationClass = ValidationClass(name: string)

  datatype BuilderError =
    | NotRecognized(repr: string)   // the argument is not a model class
    | NoPool(model: string)          // the class's pool is missing or is not a connection pool
    | MultiplePrimary(model: string) // "Only one key can be used as primary"
    | NoPrimary(model: string)       // "No primary key"

  /** What would be sent to the store for one standard model. */
  datatype Plan = Plan(
    keyspace: string,
    cf: string,
    cvclasses: map<string, ValidationClass>,
    indexes: map<string, ValidationClass>,
    indexNames: map<string, string>)

  datatype MetaResult = Skip | Error(e: BuilderError) | Planned(plan: Plan)

  /** The class's `__pool__` exists and is a connection pool. */
  predicate HasPool(model: ModelClass) {
    model.pool.Some? && model.pool.value.PoolAttr?
  }

  /** The keyspace of the class's connection pool. */
  function KeyspaceOf(model: ModelClass): string
    requires HasPool(model)
  {
    model.pool.value.pool.keyspace
  }

  /** Where a plan creates its column family: the keyspace and the family. */
  function Target(p: Plan): (string, string) {
    (p.keyspace, p.cf)
  }

  /** The column name written to the store: the alias, unless it is absent
      or empty, and otherwise the attribute name. */
  function WireName(attr: string, c: Column): string {
    if c.alias.Some? && c.alias.value != "" then c.alias.value else attr
  }

  /** The wire name of a column built by the constructor is its string
      alias when that is non-empty, and the attribute name otherwise; the
      attribute name is never used for a non-empty alias. */
  lemma WireNameOfConstructed(attr: string, args: seq<Value>, index: Option<bool>, primaryKey: Option<bool>)
    requires Classifiable(args)
    requires NewColumn(args, index, primaryKey).Success?
    ensures args[0].Text? && args[0].s != "" ==> WireName(attr, NewColumn(args, index, primaryKey).value) == args[0].s
    ensures args[0].TypeClass? ==> WireName(attr, NewColumn(args, index, primaryKey).value) == attr
    ensures args[0].Text? && args[0].s == "" ==> WireName(attr, NewColumn(args, index, primaryKey).value) == attr
  {
  }

  /** The secondary-index name of wire name `n` in column family `cf`. */
  function IndexName(cf: string, n: string): string {
    cf + "_" + n + "_index"
  }

  /** Within one column family, distinct columns get distinct index names. */
  lemma IndexNameInjective(cf: string, n: string, m: string)
    ensures IndexName(cf, n) == IndexName(cf, m) ==> n == m
  {
    if IndexName(cf, n) == IndexName(cf, m) {
      var k := |cf| + 1;
      assert n == IndexName(cf, n)[k..k + |n|];
      assert m == IndexName(cf, m)[k..k + |m|];
    }
  }

  // ---------------------------------------------------------------------------
  // The scan over the class attributes
  // ---------------------------------------------------------------------------

  predicate IsColumnAt(attrs: seq<(string, Attr)>, i: int) {
    0 <= i < |attrs| && attrs[i].1.ColumnAttr?
  }

  predicate IsIndexedAt(attrs: seq<(string, Attr)>, i: int) {
    IsColumnAt(attrs, i) && attrs[i].1.column.index
  }

  function WireAt(attrs: seq<(string, Attr)>, i: int): string
    requires IsColumnAt(attrs, i)
  {
    WireName(attrs[i].0, attrs[i].1.column)
  }

  /** The number of primary-key columns among the first `k` attributes. */
  function PrimaryCount(attrs: seq<(string, Attr)>, k: nat): nat
    requires k <= |attrs|
  {
    if k == 0 then 0
    else PrimaryCount(attrs, k - 1) + (if IsColumnAt(attrs, k - 1) && attrs[k - 1].1.column.primaryKey then 1 else 0)
  }

  /** The wire names of the columns among the first `k` attributes. */
  function WireNames(attrs: seq<(string, Attr)>, k: nat): set<string>
    requires k <= |attrs|
  {
    set i | 0 <= i < k && IsColumnAt(attrs, i) :: WireAt(attrs, i)
  }

  /** The wire names of the indexed columns among the first `k` attributes. */
  function IndexedWireNames(attrs: seq<(string, Attr)>, k: nat): set<string>
    requires k <= |attrs|
  {
    set i | 0 <= i < k && IsIndexedAt(attrs, i) :: WireAt(attrs, i)
  }

  /** Column `i` is the last column before `k` with its wire name. */
  predicate LastColumn(attrs: seq<(string, Attr)>, k: nat, i: nat)
    requires i < k <= |attrs| && IsColumnAt(attrs, i)
  {
    forall j :: i < j < k && IsColumnAt(attrs, j) ==> WireAt(attrs, j) != WireAt(attrs, i)
  }

  /** Column `i` is the last indexed column before `k` with its wire name. */
  predicate LastIndexed(attrs: seq<(string, Attr)>, k: nat, i: nat)
    requires i < k <= |attrs| && IsColumnAt(attrs, i)
  {
    forall j :: i < j < k && IsIndexedAt(attrs, j) ==> WireAt(attrs, j) != WireAt(attrs, i)
  }

  /** No two columns share a wire name. */
  predicate DistinctWireNames(attrs: seq<(string, Attr)>) {
    forall i, j :: 0 <= i < j < |attrs| && IsColumnAt(attrs, i) && IsColumnAt(attrs, j) ==> WireAt(attrs, i) != WireAt(attrs, j)
  }

  /** The loop's state: still scanning with the primary key found so far
      and the two maps, or stopped at a second primary key. */
  datatype Scan =
    | Scanning(primary: Option<Column>, cvclasses: map<string, ValidationClass>, indexes: map<string, ValidationClass>)
    | TooManyPrimaries

  /** The loop over the first `k` class attributes, in order. */
  function ScanColumns(attrs: seq<(string, Attr)>, k: nat, tt: Value -> ValidationClass): Scan
    requires k <= |attrs|
  {
    if k == 0 then Scanning(None, map[], map[])
    else
      match ScanColumns(attrs, k - 1, tt)
      case TooManyPrimaries => TooManyPrimaries
      case Scanning(primary, cvclasses, indexes) =>
        var (attr, value) := attrs[k - 1];
        if !value.ColumnAttr? then Scanning(primary, cvclasses, indexes)
        else
          var c := value.column;
          var name := WireName(attr, c);
          if c.primaryKey && primary.Some? then TooManyPrimaries
          else
            Scanning(
              if c.primaryKey then Some(c) else primary,
              cvclasses[name := tt(c.colType)],
              if c.index then indexes[name := tt(c.colType)] else indexes)
  }

  /** The scan stops exactly when a second primary key appears, and
      otherwise holds a primary key exactly when it has seen one. */
  lemma {:induction false} ScanPrimary(attrs: seq<(string, Attr)>, k: nat, tt: Value -> ValidationClass)
    requires k <= |attrs|
    ensures ScanColumns(attrs, k, tt).TooManyPrimaries? <==> PrimaryCount(attrs, k) >= 2
    ensures ScanColumns(attrs, k, tt).Scanning? ==> (ScanColumns(attrs, k, tt).primary.Some? <==> PrimaryCount(attrs, k) == 1)
    decreases k
  {
    if k > 0 {
      ScanPrimary(attrs, k - 1, tt);
    }
  }

  /** While scanning, the validation classes are keyed by every column's
      wire name and the indexes by every indexed column's wire name. */
  lemma {:induction false} ScanKeys(attrs: seq<(string, Attr)>, k: nat, tt: Value -> ValidationClass)
    requires k <= |attrs|
    ensures var s := ScanColumns(attrs, k, tt);
      s.Scanning? ==> s.cvclasses.Keys == WireNames(attrs, k) && s.indexes.Keys == IndexedWireNames(attrs, k)
    decreases k
  {
    if k > 0 {
      ScanKeys(attrs, k - 1, tt);
      if ScanColumns(attrs, k, tt).Scanning? {
        if IsColumnAt(attrs, k - 1) {
          var name := WireAt(attrs, k - 1);
          assert WireNames(attrs, k) == WireNames(attrs, k - 1) + {name};
          if attrs[k - 1].1.column.index {
            assert IndexedWireNames(attrs, k) == IndexedWireNames(attrs, k - 1) + {name};
          } else {
            assert IndexedWireNames(attrs, k) == IndexedWireNames(attrs, k - 1);
          }
        } else {
          assert WireNames(attrs, k) == WireNames(attrs, k - 1);
          assert IndexedWireNames(attrs, k) == IndexedWireNames(attrs, k - 1);
        }
      }
    }
  }

  /** While scanning, each wire name holds the validation class of the
      last column that has it. */
  lemma {:induction false} ScanValidationValues(attrs: seq<(string, Attr)>, k: nat, tt: Value -> ValidationClass)
    requires k <= |attrs|
    ensures var s := ScanColumns(attrs, k, tt);
      s.Scanning? ==> forall i :: 0 <= i < k && IsColumnAt(attrs, i) && LastColumn(attrs, k, i) ==>
        WireAt(attrs, i) in s.cvclasses && s.cvclasses[WireAt(attrs, i)] == tt(attrs[i].1.column.colType)
    decreases k
  {
    if k > 0 {
      ScanValidationValues(attrs, k - 1, tt);
      var s := ScanColumns(attrs, k - 1, tt);
      var s' := ScanColumns(attrs, k, tt);
      if s'.Scanning? {
        assert s.Scanning?;
        if IsColumnAt(attrs, k - 1) {
          assert s'.cvclasses == s.cvclasses[WireAt(attrs, k - 1) := tt(attrs[k - 1].1.column.colType)];
        } else {
          assert s'.cvclasses == s.cvclasses;
        }
        forall i | 0 <= i < k && IsColumnAt(attrs, i) && LastColumn(attrs, k, i)
          ensures WireAt(attrs, i) in s'.cvclasses && s'.cvclasses[WireAt(attrs, i)] == tt(attrs[i].1.column.colType)
        {
          if i < k - 1 {
            assert LastColumn(attrs, k - 1, i);
          }
        }
      }
    }
  }

  /** While scanning, each indexed wire name holds the validation class of
      the last indexed column that has it. */
  lemma {:induction false} ScanIndexValues(attrs: seq<(string, Attr)>, k: nat, tt: Value -> ValidationClass)
    requires k <= |attrs|
    ensures var s := ScanColumns(attrs, k, tt);
      s.Scanning? ==> forall i :: 0 <= i < k && IsIndexedAt(attrs, i) && LastIndexed(attrs, k, i) ==>
        WireAt(attrs, i) in s.indexes && s.indexes[WireAt(attrs, i)] == tt(attrs[i].1.column.colType)
    decreases k
  {
    if k > 0 {
      ScanIndexValues(attrs, k - 1, tt);
      var s := ScanColumns(attrs, k - 1, tt);
      var s' := ScanColumns(attrs, k, tt);
      if s'.Scanning? {
        assert s.Scanning?;
        if IsColumnAt(attrs, k - 1) && attrs[k - 1].1.column.index {
          assert s'.indexes == s.indexes[WireAt(attrs, k - 1) := tt(attrs[k - 1].1.column.colType)];
        } else {
          assert s'.indexes == s.indexes;
        }
        forall i | 0 <= i < k && IsIndexedAt(attrs, i) && LastIndexed(attrs, k, i)
          ensures WireAt(attrs, i) in s'.indexes && s'.indexes[WireAt(attrs, i)] == tt(attrs[i].1.column.colType)
        {
          if i < k - 1 {
            assert LastIndexed(attrs, k - 1, i);
          }
        }
      }
    }
  }

  // ---------------------------------------------------------------------------
  // One standard model
  // ---------------------------------------------------------------------------

  /** The plan for a model whose column family is to be created in
      `keyspace`: exactly one primary key is required, and every check comes
      before the plan is formed. */
  function PlanFor(model: ModelClass, keyspace: string, tt: Value -> ValidationClass): (r: Result<Plan, BuilderError>)
    ensures r.Success? <==> PrimaryCount(model.attrs, |model.attrs|) == 1
    ensures r.Failure? ==> (r.error == MultiplePrimary(model.name) <==> PrimaryCount(model.attrs, |model.attrs|) >= 2)
    ensures r.Failure? ==> (r.error == NoPrimary(model.name) <==> PrimaryCount(model.attrs, |model.attrs|) == 0)
    ensures r.Success? ==> r.value.keyspace == keyspace && r.value.cf == model.columnFamily
    ensures r.Success? ==> r.value.cvclasses.Keys == WireNames(model.attrs, |model.attrs|)
    ensures r.Success? ==> r.value.indexes.Keys == IndexedWireNames(model.attrs, |model.attrs|)
    ensures r.Success? ==> r.value.indexes.Keys <= r.value.cvclasses.Keys
    ensures r.Success? ==> forall i :: IsColumnAt(model.attrs, i) && LastColumn(model.attrs, |model.attrs|, i) ==>
      r.value.cvclasses[WireAt(model.attrs, i)] == tt(model.attrs[i].1.column.colType)
    ensures r.Success? ==> forall i :: IsIndexedAt(model.attrs, i) && LastIndexed(model.attrs, |model.attrs|, i) ==>
      r.value.indexes[WireAt(model.attrs, i)] == tt(model.attrs[i].1.column.colType)
    ensures r.Success? && DistinctWireNames(model.attrs) ==>
      forall n :: n in r.value.indexes ==> r.value.indexes[n] == r.value.cvclasses[n]
    ensures r.Success? ==> r.value.indexNames.Keys == r.value.indexes.Keys
    ensures r.Success? ==> forall n :: n in r.value.indexNames ==> r.value.indexNames[n] == r.value.cf + "_" + n + "_index"
  {
    var attrs := model.attrs;
    var cf := model.columnFamily;
    ScanPrimary(attrs, |attrs|, tt);
    ScanKeys(attrs, |attrs|, tt);
    ScanValidationValues(attrs, |attrs|, tt);
    ScanIndexValues(attrs, |attrs|, tt);
    var s := ScanColumns(attrs, |attrs|, tt);
    if s.TooManyPrimaries? then Failure(MultiplePrimary(model.name))
    else if s.primary.None? then Failure(NoPrimary(model.name))
    else
      DistinctIndexesAgree(attrs, tt);
      Success(Plan(keyspace, cf, s.cvclasses, s.indexes, IndexNames(cf, s.indexes.Keys)))
  }

  /** The secondary-index name of each indexed wire name. */
  function IndexNames(cf: string, names: set<string>): (r: map<string, string>)
    ensures r.Keys == names
    ensures forall n :: n in r ==> r[n] == IndexName(cf, n)
  {
    map n | n in names :: IndexName(cf, n)
  }

  /** The metadata step for one standard model class. The class's pool
      must be a connection pool, and a family that already exists in the
      pool's keyspace is skipped unless `force` is set; otherwise the class
      gets its plan, or the error that prevents one. */
  function CreateMetamodel(model: ModelClass, existing: set<(string, string)>, force: bool,
                           tt: Value -> ValidationClass): (r: MetaResult)
    ensures r == Error(NoPool(model.name)) <==> !HasPool(model)
    ensures r.Skip? <==> HasPool(model) && (KeyspaceOf(model), model.columnFamily) in existing && !force
    ensures HasPool(model) && !r.Skip? ==> (r.Planned? <==> PrimaryCount(model.attrs, |model.attrs|) == 1)
    ensures HasPool(model) && r.Error? ==> (r.e == MultiplePrimary(model.name) <==> PrimaryCount(model.attrs, |model.attrs|) >= 2)
    ensures HasPool(model) && r.Error? ==> (r.e == NoPrimary(model.name) <==> PrimaryCount(model.attrs, |model.attrs|) == 0)
    ensures r.Planned? ==> HasPool(model) && r.plan.keyspace == KeyspaceOf(model)
    ensures r.Planned? ==> r.plan.cf == model.columnFamily
    ensures r.Planned? ==> r.plan.cvclasses.Keys == WireNames(model.attrs, |model.attrs|)
    ensures r.Planned? ==> r.plan.indexes.Keys == IndexedWireNames(model.attrs, |model.attrs|)
    ensures r.Planned? ==> forall i :: IsColumnAt(model.attrs, i) && LastColumn(model.attrs, |model.attrs|, i) ==>
      r.plan.cvclasses[WireAt(model.attrs, i)] == tt(model.attrs[i].1.column.colType)
    ensures r.Planned? ==> r.plan.indexes.Keys <= r.plan.cvclasses.Keys
    ensures r.Planned? ==> forall i :: IsIndexedAt(model.attrs, i) && LastIndexed(model.attrs, |model.attrs|, i) ==>
      r.plan.indexes[WireAt(model.attrs, i)] == tt(model.attrs[i].1.column.colType)
    ensures r.Planned? && DistinctWireNames(model.attrs) ==>
      forall n :: n in r.plan.indexes ==> r.plan.indexes[n] == r.plan.cvclasses[n]
    ensures r.Planned? ==> r.plan.indexNames.Keys == r.plan.indexes.Keys
    ensures r.Planned? ==> forall n :: n in r.plan.indexNames ==> r.plan.indexNames[n] == r.plan.cf + "_" + n + "_index"
  {
    if !HasPool(model) then Error(NoPool(model.name))
    else if (KeyspaceOf(model), model.columnFamily) in existing && !force then Skip
    else
      match PlanFor(model, KeyspaceOf(model), tt)
      case Success(p) => Planned(p)
      case Failure(e) => Error(e)
  }

  /** With distinct wire names, every column is the last with its name, so
      an indexed column's index type is its validation type. */
  lemma DistinctIndexesAgree(attrs: seq<(string, Attr)>, tt: Value -> ValidationClass)
    requires ScanColumns(attrs, |attrs|, tt).Scanning?
    ensures var s := ScanColumns(attrs, |attrs|, tt);
      DistinctWireNames(attrs) ==> forall n :: n in s.indexes ==> n in s.cvclasses && s.indexes[n] == s.cvclasses[n]
  {
    var s := ScanColumns(attrs, |attrs|, tt);
    ScanKeys(attrs, |attrs|, tt);
    ScanValidationValues(attrs, |attrs|, tt);
    ScanIndexValues(attrs, |attrs|, tt);
    if DistinctWireNames(attrs) {
      forall n | n in s.indexes
        ensures n in s.cvclasses && s.indexes[n] == s.cvclasses[n]
      {
        var i :| 0 <= i < |attrs| && IsIndexedAt(attrs, i) && WireAt(attrs, i) == n;
        assert LastColumn(attrs, |attrs|, i);
        assert LastIndexed(attrs, |attrs|, i);
      }
    }
  }

  // ---------------------------------------------------------------------------
  // A batch of classes
  // ---------------------------------------------------------------------------

  /** The plans formed, in order, and the error that stopped the batch. */
  datatype Report = Report(plans: seq<Plan>, failure: Option<BuilderError>)

  /** The (keyspace, family) pairs a sequence of plans creates. */
  function Targets(plans: seq<Plan>): set<(string, string)> {
    set i | 0 <= i < |plans| :: Target(plans[i])
  }

  /** What one class contributes to a batch: a plan or nothing, or the
      error that stops the batch. */
  datatype Outcome = Continue(plan: Option<Plan>) | Stop(e: BuilderError)

  /** One class of the batch: standard models go through the metadata
      step, timestamped models need nothing, anything else is rejected. */
  function Step(c: ModelType, existing: set<(string, string)>, force: bool, tt: Value -> ValidationClass): Outcome {
    match c
    case NotAModel(repr) => Stop(NotRecognized(repr))
    case Timestamped(_) => Continue(None)
    case Standard(model) =>
      match CreateMetamodel(model, existing, force, tt)
      case Skip => Continue(None)
      case Error(e) => Stop(e)
      case Planned(p) => Continue(Some(p))
  }

  /** The plans a step contributes. */
  function Emitted(plan: Option<Plan>): seq<Plan> {
    if plan.Some? then [plan.value] else []
  }

  /** The existing families once a step's plan, if any, is carried out. */
  function Grow(existing: set<(string, string)>, plan: Option<Plan>): set<(string, string)> {
    if plan.Some? then existing + {Target(plan.value)} else existing
  }

  /** Processes the classes in order; the first error stops the batch. A
      planned family exists in its keyspace from then on, for the classes
      after it. */
  function Create(classes: seq<ModelType>, existing: set<(string, string)>, force: bool,
                  tt: Value -> ValidationClass): (r: Report)
    ensures |r.plans| <= |classes|
    ensures r.failure.Some? ==> |r.plans| < |classes|
    ensures r.failure.None? ==> forall i :: 0 <= i < |classes| ==> !classes[i].NotAModel?
    ensures r.failure.Some? && r.failure.value.NotRecognized? ==>
      exists i :: 0 <= i < |classes| && classes[i] == NotAModel(r.failure.value.repr)
    ensures r.failure.Some? && r.failure.value.NoPool? ==>
      exists i :: 0 <= i < |classes| && classes[i].Standard? && classes[i].model.name == r.failure.value.model
        && !HasPool(classes[i].model)
    ensures !force ==> forall i :: 0 <= i < |r.plans| ==> Target(r.plans[i]) !in existing
    ensures !force ==> forall i, j :: 0 <= i < j < |r.plans| ==> Target(r.plans[i]) != Target(r.plans[j])
    decreases |classes|
  {
    if |classes| == 0 then Report([], None)
    else
      match Step(classes[0], existing, force, tt)
      case Stop(e) => Report([], Some(e))
      case Continue(plan) =>
        var rest := Create(classes[1..], Grow(existing, plan), force, tt);
        Report(Emitted(plan) + rest.plans, rest.failure)
  }

  /** The batch stops at its first failure: classes after it contribute
      nothing. */
  lemma {:induction false} CreateStopsAtFailure(classes: seq<ModelType>, rest: seq<ModelType>,
                                                existing: set<(string, string)>, force: bool, tt: Value -> ValidationClass)
    requires Create(classes, existing, force, tt).failure.Some?
    ensures Create(classes + rest, existing, force, tt) == Create(classes, existing, force, tt)
    decreases |classes|
  {
    assert (classes + rest)[0] == classes[0];
    assert (classes + rest)[1..] == classes[1..] + rest;
    var o := Step(classes[0], existing, force, tt);
    if o.Continue? {
      CreateStopsAtFailure(classes[1..], rest, Grow(existing, o.plan), force, tt);
    }
  }

  lemma SeqAssoc<T>(a: seq<T>, b: seq<T>, c: seq<T>)
    ensures a + b + c == a + (b + c)
  {
  }

  lemma TargetsCons(p: Plan, plans: seq<Plan>)
    ensures Targets([p] + plans) == {Target(p)} + Targets(plans)
  {
    var all := [p] + plans;
    forall x | x in Targets(all) ensures x in {Target(p)} + Targets(plans) {
      var i :| 0 <= i < |all| && Target(all[i]) == x;
      if i > 0 { assert all[i] == plans[i - 1]; }
    }
    forall x | x in Targets(plans) ensures x in Targets(all) {
      var i :| 0 <= i < |plans| && Target(plans[i]) == x;
      assert all[i + 1] == plans[i];
    }
    assert all[0] == p;
  }

  /** The pairs a step's plan and the plans after it create, seen from
      before the step. */
  lemma GrowTargets(existing: set<(string, string)>, plan: Option<Plan>, tail: seq<Plan>)
    ensures existing + Targets(Emitted(plan) + tail) == Grow(existing, plan) + Targets(tail)
  {
    if plan.Some? {
      TargetsCons(plan.value, tail);
    } else {
      assert Emitted(plan) + tail == tail;
    }
  }

  /** A batch that succeeds on its first classes goes on with the rest,
      seeing the families planned so far as existing. */
  lemma {:induction false} CreateConcat(classes: seq<ModelType>, rest: seq<ModelType>,
                                        existing: set<(string, string)>, force: bool, tt: Value -> ValidationClass)
    requires Create(classes, existing, force, tt).failure.None?
    ensures var first := Create(classes, existing, force, tt);
      var second := Create(rest, existing + Targets(first.plans), force, tt);
      Create(classes + rest, existing, force, tt) == Report(first.plans + second.plans, second.failure)
    decreases |classes|
  {
    var first := Create(classes, existing, force, tt);
    if |classes| == 0 {
      assert classes + rest == rest;
      assert existing + Targets(first.plans) == existing;
    } else {
      assert (classes + rest)[0] == classes[0];
      assert (classes + rest)[1..] == classes[1..] + rest;
      var o := Step(classes[0], existing, force, tt);
      var next := Grow(existing, o.plan);
      var tail := Create(classes[1..], next, force, tt);
      CreateConcat(classes[1..], rest, next, force, tt);
      assert first.plans == Emitted(o.plan) + tail.plans;
      GrowTargets(existing, o.plan, tail.plans);
      var second := Create(rest, existing + Targets(first.plans), force, tt);
      var joined := Create(classes[1..] + rest, next, force, tt);
      assert joined.plans == tail.plans + second.plans;
      SeqAssoc(Emitted(o.plan), tail.plans, second.plans);
    }
  }

  /** The batch fails at class `j`: the classes before it run without
      failure and form every plan, and class `j` alone, seeing their
      families as existing, fails with the batch's error. */
  predicate FailsAt(classes: seq<ModelType>, existing: set<(string, string)>, force: bool,
                    tt: Value -> ValidationClass, j: nat)
    requires j < |classes|
  {
    var r := Create(classes, existing, force, tt);
    var before := Create(classes[..j], existing, force, tt);
    && before.failure.None?
    && r.plans == before.plans
    && r.failure.Some?
    && Create([classes[j]], existing + Targets(before.plans), force, tt) == Report([], r.failure)
  }

  /** A failing batch fails at exactly one class, as `FailsAt` describes. */
  lemma {:induction false} CreateFailureExact(classes: seq<ModelType>, existing: set<(string, string)>, force: bool,
                                              tt: Value -> ValidationClass)
    requires Create(classes, existing, force, tt).failure.Some?
    ensures exists j :: 0 <= j < |classes| && FailsAt(classes, existing, force, tt, j)
    decreases |classes|
  {
    var o := Step(classes[0], existing, force, tt);
    if o.Stop? {
      assert [classes[0]][0] == classes[0];
      assert classes[..0] == [];
      assert Targets([]) == {};
      assert FailsAt(classes, existing, force, tt, 0);
    } else {
      var next := Grow(existing, o.plan);
      CreateFailureExact(classes[1..], next, force, tt);
      var j :| 0 <= j < |classes[1..]| && FailsAt(classes[1..], next, force, tt, j);
      var before := Create(classes[1..][..j], next, force, tt);
      assert classes[..j + 1][0] == classes[0];
      assert classes[..j + 1][1..] == classes[1..][..j];
      assert classes[1..][j] == classes[j + 1];
      GrowTargets(existing, o.plan, before.plans);
      assert FailsAt(classes, existing, force, tt, j + 1);
    }
  }

  /** One family name in two keyspaces is two families: both classes are
      planned, one in each keyspace. */
  lemma SameFamilyTwoKeyspaces(tt: Value -> ValidationClass)
    ensures var key := Column(None, TypeClass(UTF8Type), false, true);
      var a := ModelClass("A", [("id", ColumnAttr(key))], Some(PoolAttr(Pool("K1", ["h:9160"]))), map[], "user");
      var b := ModelClass("B", [("id", ColumnAttr(key))], Some(PoolAttr(Pool("K2", ["h:9160"]))), map[], "user");
      var r := Create([Standard(a), Standard(b)], {}, false, tt);
      r.failure.None? && |r.plans| == 2 && Target(r.plans[0]) == ("K1", "user") && Target(r.plans[1]) == ("K2", "user")
  {
    var key := Column(None, TypeClass(UTF8Type), false, true);
    var a := ModelClass("A", [("id", ColumnAttr(key))], Some(PoolAttr(Pool("K1", ["h:9160"]))), map[], "user");
    var b := ModelClass("B", [("id", ColumnAttr(key))], Some(PoolAttr(Pool("K2", ["h:9160"]))), map[], "user");
    assert PrimaryCount(a.attrs, 1) == 1;
    assert PrimaryCount(b.attrs, 1) == 1;
    var ra := CreateMetamodel(a, {}, false, tt);
    assert ra.Planned? && Target(ra.plan) == ("K1", "user");
    var rb := CreateMetamodel(b, {Target(ra.plan)}, false, tt);
    assert rb.Planned? && Target(rb.plan) == ("K2", "user");
    assert [Standard(a), Standard(b)][1..] == [Standard(b)];
    assert [Standard(b)][1..] == [];
  }

  /** A column attribute named `pool` becomes the class's pool, even over an
      inherited connection pool, and the metadata step then fails on it. */
  lemma ColumnNamedPool(tt: Value -> ValidationClass)
    ensures var key := Column(None, TypeClass(UTF8Type), false, true);
      var m := Finalised(ClassDecl("U", [("pool", ColumnAttr(key))], None, None), Some(PoolAttr(Pool("K", ["h:9160"]))));
      m.pool == Some(ColumnAttr(key)) && CreateMetamodel(m, {}, false, tt) == Error(NoPool("U"))
  {
  }

  /** A class body that sets `__pool__` itself uses that pool, not the
      inherited one; a `pool` attribute takes precedence over it. */
  lemma OwnPoolEntries(tt: Value -> ValidationClass)
    ensures var key := Column(None, TypeClass(UTF8Type), false, true);
      var base := Some(PoolAttr(Pool("K1", ["h1"])));
      var m := Finalised(ClassDecl("U", [("__pool__", PoolAttr(Pool("K2", ["h2"]))), ("id", ColumnAttr(key))], None, None), base);
      var r := CreateMetamodel(m, {}, false, tt);
      r.Planned? && Target(r.plan) == ("K2", "u")
    ensures var both := [("__pool__", PoolAttr(Pool("K2", ["h2"]))), ("pool", PoolAttr(Pool("K3", ["h3"])))];
      Finalised(ClassDecl("U", both, None, None), None).pool == Some(PoolAttr(Pool("K3", ["h3"])))
  {
    var key := Column(None, TypeClass(UTF8Type), false, true);
    var attrs := [("__pool__", PoolAttr(Pool("K2", ["h2"]))), ("id", ColumnAttr(key))];
    assert attrs[0].0 == "__pool__";
    assert DeclaredPool(attrs) == Some(PoolAttr(Pool("K2", ["h2"])));
    assert Lookups(attrs) == map[] by {
      var init := attrs[..1];
      assert !IsIndexedColumn(attrs[1].1) && !IsIndexedColumn(init[0].1);
      assert Lookups(attrs) == Lookups(init);
      assert init[..0] == [];
      assert Lookups(init) == Lookups(init[..0]);
    }
    assert Without(attrs, {}) == attrs by {
      assert attrs[1..][1..] == [];
    }
    assert PrimaryCount(attrs, 1) == 0;
    assert PrimaryCount(attrs, 2) == 1;
    assert Lower("U") == "u";
  }
}

=== FILE: models.dfy ===
/** Column descriptors and the finalisation of standard model classes
    (src/cassobjects/models.py).

    A model class is given as an explicit declaration: its name, its own
    attributes in the order the class dictionary yields them (the `pool`
    entry among them), and the `__indexes__` and `__column_family__` entries
    when they are declared. Finalisation turns it into a `ModelClass` or
    fails. */
module Models {
  import opened Results
  import opened StoreTypes

  // ---------------------------------------------------------------------------
  // Column descriptors
  // ---------------------------------------------------------------------------

  /** A positional argument handed to the column constructor. */
  datatype Value =
    | Text(s: string)           // a byte or unicode string
    | TypeClass(t: StoreType)   // the store's base column type or any subclass of it
    | OtherClass(name: string)  // any other class
    | OtherObject(repr: string) // anything that is not a class, such as a number

  /** A declared column: its optional alias (wire name), its value type as
      given, and the `index` and `primary_key` flags. */
  datatype Column = Column(alias: Option<string>, colType: Value, index: bool, primaryKey: bool)

  datatype ModelError =
    | UnrecognizedParameter(arg: Value)  // first constructor argument is neither a string nor a store type
    | UndeclaredIndexes(names: seq<string>)  // the `__indexes__` names the finalisation rejects

  /** The argument lists for which the constructor reaches its own branches:
      at least one argument, a second one after a string alias, and a first
      argument that is a string or a class. Anything else fails inside the
      host language before the constructor decides anything. */
  predicate Classifiable(args: seq<Value>) {
    && |args| >= 1
    && !args[0].OtherObject?
    && (args[0].Text? ==> |args| >= 2)
  }

  /** The column constructor: `(alias, type)` when the first argument is a
      string, `(type)` when it is a store type, an error otherwise. The
      keyword flags default to false. */
  function NewColumn(args: seq<Value>, index: Option<bool>, primaryKey: Option<bool>): (r: Result<Column, ModelError>)
    requires Classifiable(args)
    ensures r.Success? <==> !args[0].OtherClass?
    ensures r.Failure? ==> r.error == UnrecognizedParameter(args[0])
    ensures args[0].Text? ==> r.Success? && r.value.alias == Some(args[0].s) && r.value.colType == args[1]
    ensures args[0].TypeClass? ==> r.Success? && r.value.alias == None && r.value.colType == args[0]
    ensures r.Success? ==> (r.value.index <==> index == Some(true))
    ensures r.Success? ==> (r.value.primaryKey <==> primaryKey == Some(true))
  {
    var idx := index.GetOr(false);
    var pk := primaryKey.GetOr(false);
    match args[0]
    case Text(s) => Success(Column(Some(s), args[1], idx, pk))
    case TypeClass(_) => Success(Column(None, args[0], idx, pk))
    case OtherClass(_) => Failure(UnrecognizedParameter(args[0]))
  }

  /** The arguments that declare `c` in the shortest form. */
  function ColumnArgs(c: Column): seq<Value> {
    match c.alias
    case Some(a) => [Text(a), c.colType]
    case None => [c.colType]
  }

  /** Every column the constructor can produce is produced again from its
      own arguments: an aliased column from `(alias, type)`, an unaliased one
      from `(type)` when its type is a store type. */
  lemma ColumnRoundTrip(c: Column)
    requires c.alias.Some? || c.colType.TypeClass?
    ensures Classifiable(ColumnArgs(c))
    ensures NewColumn(ColumnArgs(c), Some(c.index), Some(c.primaryKey)) == Success(c)
  {
  }

  // ---------------------------------------------------------------------------
  // Model declarations
  // ---------------------------------------------------------------------------

  /** A connection pool, identified by its keyspace and server list. */
  datatype Pool = Pool(keyspace: string, hosts: seq<string>)

  /** A class attribute: a column descriptor, a connection pool, or anything
      else (methods, constants). */
  datatype Attr = ColumnAttr(column: Column) | PoolAttr(pool: Pool) | PlainAttr

  datatype ClassDecl = ClassDecl(
    name: string,
    attrs: seq<(string, Attr)>,
    indexes: Option<seq<string>>,
    columnFamily: Option<string>)

  /** A lookup attached to the class, bound to one attribute name. */
  datatype Lookup = GetBy(attr: string) | GetOneBy(attr: string)

  /** A finalised standard model class. `attrs` are its own declared
      attributes that no attached lookup has overwritten; `pool` is the value
      of its `__pool__`, declared or inherited, whether or not that value is a
      connection pool; `lookups` maps each attached lookup name to the lookup
      it denotes. */
  datatype ModelClass = ModelClass(
    name: string,
    attrs: seq<(string, Attr)>,
    pool: Option<Attr>,
    lookups: map<string, Lookup>,
    columnFamily: string)

  /** A class as the provisioning step sees it: a standard model, a
      timestamped model, or some unrelated object. */
  datatype ModelType =
    | Standard(model: ModelClass)
    | Timestamped(name: string)
    | NotAModel(repr: string)

  function GetByName(attr: string): string { "get_by_" + attr }

  function GetOneByName(attr: string): string { "get_one_by_" + attr }

  /** Distinct attributes never share a lookup name, and the two lookup
      forms never collide. */
  lemma LookupNamesInjective(a: string, b: string)
    ensures GetByName(a) == GetByName(b) ==> a == b
    ensures GetOneByName(a) == GetOneByName(b) ==> a == b
    ensures GetByName(a) != GetOneByName(b)
  {
    if GetByName(a) == GetByName(b) {
      assert a == GetByName(a)[7..];
    }
    if GetOneByName(a) == GetOneByName(b) {
      assert a == GetOneByName(a)[11..];
    }
    assert GetByName(a)[4] == 'b';
    assert GetOneByName(b)[4] == 'o';
  }

  predicate IsIndexedColumn(a: Attr) {
    a.ColumnAttr? && a.column.index
  }

  /** The names of the attributes that are columns. */
  function ColumnNames(attrs: seq<(string, Attr)>): set<string> {
    set i | 0 <= i < |attrs| && attrs[i].1.ColumnAttr? :: attrs[i].0
  }

  /** The names of the attributes that are indexed columns. */
  function IndexedAttrs(attrs: seq<(string, Attr)>): set<string> {
    set i | 0 <= i < |attrs| && IsIndexedColumn(attrs[i].1) :: attrs[i].0
  }

  /** The lookups attached while walking the attributes in order: two per
      indexed column, none for anything else. */
  function Lookups(attrs: seq<(string, Attr)>): map<string, Lookup>
    decreases |attrs|
  {
    if |attrs| == 0 then map[]
    else
      var m := Lookups(attrs[..|attrs| - 1]);
      var (attr, value) := attrs[|attrs| - 1];
      if IsIndexedColumn(value) then m[GetByName(attr) := GetBy(attr)][GetOneByName(attr) := GetOneBy(attr)]
      else m
  }

  /** Exactly the indexed columns get the two lookups, each bound to its own
      attribute; nothing else gets one. */
  lemma {:induction false} LookupsExact(attrs: seq<(string, Attr)>)
    ensures forall a :: a in IndexedAttrs(attrs) ==>
      && GetByName(a) in Lookups(attrs) && Lookups(attrs)[GetByName(a)] == GetBy(a)
      && GetOneByName(a) in Lookups(attrs) && Lookups(attrs)[GetOneByName(a)] == GetOneBy(a)
    ensures forall k :: k in Lookups(attrs) ==>
      exists a :: a in IndexedAttrs(attrs) && (k == GetByName(a) || k == GetOneByName(a))
    decreases |attrs|
  {
    if |attrs| > 0 {
      var init := attrs[..|attrs| - 1];
      var (attr, value) := attrs[|attrs| - 1];
      LookupsExact(init);
      assert IndexedAttrs(attrs) == IndexedAttrs(init) + (if IsIndexedColumn(value) then {attr} else {}) by {
        forall a | a in IndexedAttrs(attrs)
          ensures a in IndexedAttrs(init) + (if IsIndexedColumn(value) then {attr} else {})
        {
          var i :| 0 <= i < |attrs| && IsIndexedColumn(attrs[i].1) && attrs[i].0 == a;
          if i < |attrs| - 1 {
            assert init[i] == attrs[i];
          }
        }
        forall a | a in IndexedAttrs(init)
          ensures a in IndexedAttrs(attrs)
        {
          var i :| 0 <= i < |init| && IsIndexedColumn(init[i].1) && init[i].0 == a;
          assert attrs[i] == init[i];
        }
        if IsIndexedColumn(value) {
          assert attrs[|attrs| - 1].0 == attr;
        }
      }
      if IsIndexedColumn(value) {
        forall a | a in IndexedAttrs(init)
          ensures GetByName(a) != GetOneByName(attr)
          ensures a != attr ==> GetByName(a) != GetByName(attr) && GetOneByName(a) != GetOneByName(attr)
          ensures GetOneByName(a) != GetByName(attr)
        {
          LookupNamesInjective(a, attr);
          LookupNamesInjective(attr, a);
        }
      }
    }
  }

  /** The attributes, in order, whose names are not in `names`. */
  function Without(attrs: seq<(string, Attr)>, names: set<string>): (r: seq<(string, Attr)>)
    ensures forall e :: e in r <==> e in attrs && e.0 !in names
    ensures |r| <= |attrs|
  {
    if |attrs| == 0 then []
    else
      var rest := Without(attrs[1..], names);
      assert forall e :: e in attrs <==> e == attrs[0] || e in attrs[1..];
      if attrs[0].0 in names then rest else [attrs[0]] + rest
  }

  /** Attribute `i` is the last one named `name`. */
  predicate LastNamedAt(attrs: seq<(string, Attr)>, name: string, i: int) {
    0 <= i < |attrs| && attrs[i].0 == name && forall j :: i < j < |attrs| ==> attrs[j].0 != name
  }

  /** The position of the last attribute named `name`, or -1 when there
      is none. */
  function LastNamedIndex(attrs: seq<(string, Attr)>, name: string): (i: int)
    ensures i < 0 <==> forall k :: 0 <= k < |attrs| ==> attrs[k].0 != name
    ensures i >= 0 ==> LastNamedAt(attrs, name, i)
    decreases |attrs|
  {
    if |attrs| == 0 then -1
    else if attrs[|attrs| - 1].0 == name then |attrs| - 1
    else
      var init := attrs[..|attrs| - 1];
      var i := LastNamedIndex(init, name);
      assert forall k :: 0 <= k < |init| ==> init[k] == attrs[k];
      i
  }

  /** The class's own `__pool__`: the value of an attribute named `pool`,
      whatever it is, which the metaclass stores as `__pool__` after the
      class is created; failing that, an attribute named `__pool__` itself;
      nothing when there is neither. */
  function DeclaredPool(attrs: seq<(string, Attr)>): (r: Option<Attr>)
    ensures r.None? <==> forall i :: 0 <= i < |attrs| ==> attrs[i].0 != "pool" && attrs[i].0 != "__pool__"
    ensures (exists i :: 0 <= i < |attrs| && attrs[i].0 == "pool") ==>
      exists i :: LastNamedAt(attrs, "pool", i) && r == Some(attrs[i].1)
    ensures (forall i :: 0 <= i < |attrs| ==> attrs[i].0 != "pool") && r.Some? ==>
      exists i :: LastNamedAt(attrs, "__pool__", i) && r == Some(attrs[i].1)
  {
    var p := LastNamedIndex(attrs, "pool");
    if p >= 0 then Some(attrs[p].1)
    else
      var q := LastNamedIndex(attrs, "__pool__");
      if q >= 0 then Some(attrs[q].1) else None
  }

  /** A declaration a class dictionary can stand for: its attribute names
      are distinct, and the `__indexes__` and `__column_family__` entries
      are given in their own fields rather than among the attributes. */
  predicate WellFormed(decl: ClassDecl) {
    && (forall i, j :: 0 <= i < j < |decl.attrs| ==> decl.attrs[i].0 != decl.attrs[j].0)
    && (forall i :: 0 <= i < |decl.attrs| ==> decl.attrs[i].0 != "__indexes__" && decl.attrs[i].0 != "__column_family__")
  }

  /** The class produced when finalisation succeeds: its own `__pool__` or
      else the inherited one, the lookups, and the column family name, which
      is the declared one or else the lower-cased class name. Attaching a
      lookup replaces any declared attribute of the same name, so the class
      keeps exactly the declared attributes the lookups leave alone. */
  function Finalised(decl: ClassDecl, inherited: Option<Attr>): (m: ModelClass)
    requires WellFormed(decl)
    ensures m.name == decl.name
    ensures forall e :: e in m.attrs <==> e in decl.attrs && e.0 !in m.lookups
    ensures DeclaredPool(decl.attrs).Some? ==> m.pool == DeclaredPool(decl.attrs)
    ensures DeclaredPool(decl.attrs).None? ==> m.pool == inherited
    ensures decl.columnFamily.Some? ==> m.columnFamily == decl.columnFamily.value
    ensures decl.columnFamily.None? ==> m.columnFamily == Lower(decl.name)
    ensures forall a :: a in IndexedAttrs(decl.attrs) ==>
      && GetByName(a) in m.lookups && m.lookups[GetByName(a)] == GetBy(a)
      && GetOneByName(a) in m.lookups && m.lookups[GetOneByName(a)] == GetOneBy(a)
    ensures forall k :: k in m.lookups ==>
      exists a :: a in IndexedAttrs(decl.attrs) && (k == GetByName(a) || k == GetOneByName(a))
  {
    LookupsExact(decl.attrs);
    var lookups := Lookups(decl.attrs);
    ModelClass(
      decl.name,
      Without(decl.attrs, lookups.Keys),
      if DeclaredPool(decl.attrs).Some? then DeclaredPool(decl.attrs) else inherited,
      lookups,
      if decl.columnFamily.Some? then decl.columnFamily.value else Lower(decl.name))
  }

  /** An indexed column `x` and a column declared as `get_by_x`: the lookup
      replaces the second, and only `x` remains a column of the class. */
  lemma LookupReplacesAttribute()
    ensures var x := Column(None, TypeClass(LongType), true, true);
      var y := Column(None, TypeClass(LongType), false, false);
      var decl := ClassDecl("User", [("x", ColumnAttr(x)), ("get_by_x", ColumnAttr(y))], None, None);
      Finalised(decl, None).attrs == [("x", ColumnAttr(x))]
  {
    var x := Column(None, TypeClass(LongType), true, true);
    var y := Column(None, TypeClass(LongType), false, false);
    var attrs := [("x", ColumnAttr(x)), ("get_by_x", ColumnAttr(y))];
    var keys := Lookups(attrs).Keys;
    LookupsExact(attrs);
    assert IsIndexedColumn(attrs[0].1);
    assert "x" in IndexedAttrs(attrs);
    assert "get_by_x" in keys by {
      assert GetByName("x") == "get_by_x";
    }
    assert "x" !in keys by {
      forall a | a in IndexedAttrs(attrs) ensures "x" != GetByName(a) && "x" != GetOneByName(a) {
        assert |GetByName(a)| > 1;
      }
    }
    var tail := attrs[1..];
    assert tail == [("get_by_x", ColumnAttr(y))];
    assert Without(tail, keys) == Without(tail[1..], keys);
    assert tail[1..] == [];
    assert Without(attrs, keys) == [attrs[0]] + Without(tail, keys);
  }

  /** The `__indexes__` list, empty when not declared. */
  function DeclaredIndexes(decl: ClassDecl): seq<string> {
    decl.indexes.GetOr([])
  }

  /** Finalisation as the metaclass performs it: any non-empty
      `__indexes__` list fails, with the whole list in the error, because no
      name is ever removed from it before the check. */
  function FinaliseAsWritten(decl: ClassDecl, inherited: Option<Attr>): (r: Result<ModelClass, ModelError>)
    requires WellFormed(decl)
    ensures r.Failure? <==> |DeclaredIndexes(decl)| > 0
    ensures r.Failure? ==> r.error == UndeclaredIndexes(DeclaredIndexes(decl))
    ensures r.Success? ==> r.value == Finalised(decl, inherited)
  {
    var indexes := DeclaredIndexes(decl);
    if |indexes| > 0 then Failure(UndeclaredIndexes(indexes))
    else Success(Finalised(decl, inherited))
  }

  /** The names of `names` that are not column attributes, in order. */
  function Undeclared(names: seq<string>, attrs: seq<(string, Attr)>): (r: seq<string>)
    ensures forall x :: x in r <==> x in names && x !in ColumnNames(attrs)
    ensures |r| <= |names|
  {
    if |names| == 0 then []
    else
      var rest := Undeclared(names[1..], attrs);
      assert forall x :: x in names <==> x == names[0] || x in names[1..];
      if names[0] in ColumnNames(attrs) then rest else [names[0]] + rest
  }

  /** Finalisation as its error message describes it: only the
      `__indexes__` names that are not declared as column attributes are
      reported, and the class is accepted when there are none. Listing a
      column does not make it indexed: only its `index` flag does. */
  function Finalise(decl: ClassDecl, inherited: Option<Attr>): (r: Result<ModelClass, ModelError>)
    requires WellFormed(decl)
    ensures r.Success? <==> forall x :: x in DeclaredIndexes(decl) ==> x in ColumnNames(decl.attrs)
    ensures r.Failure? ==> r.error.UndeclaredIndexes? && |r.error.names| > 0
    ensures r.Failure? ==> forall x :: x in r.error.names <==> x in DeclaredIndexes(decl) && x !in ColumnNames(decl.attrs)
    ensures r.Success? ==> r.value == Finalised(decl, inherited)
  {
    var missing := Undeclared(DeclaredIndexes(decl), decl.attrs);
    if |missing| > 0 then
      assert missing[0] in missing;
      Failure(UndeclaredIndexes(missing))
    else Success(Finalised(decl, inherited))
  }

  /** Both finalisations agree on every class that declares no index list. */
  lemma FinaliseAgreesWithoutIndexList(decl: ClassDecl, inherited: Option<Attr>)
    requires WellFormed(decl)
    requires |DeclaredIndexes(decl)| == 0
    ensures Finalise(decl, inherited) == FinaliseAsWritten(decl, inherited)
    ensures Finalise(decl, inherited).Success?
  {
  }

  /** A class with one indexed column `email` that lists it in `__indexes__`. */
  function EmailDecl(): ClassDecl {
    ClassDecl(
      "User",
      [("email", ColumnAttr(Column(None, TypeClass(UTF8Type), true, false)))],
      Some(["email"]),
      None)
  }

  /** The index list names a declared indexed field, yet the metaclass
      rejects the class; the intended finalisation accepts it. */
  lemma DeclaredIndexStillRejected()
    ensures "email" in ColumnNames(EmailDecl().attrs) && "email" in IndexedAttrs(EmailDecl().attrs)
    ensures FinaliseAsWritten(EmailDecl(), None) == Failure(UndeclaredIndexes(["email"]))
    ensures Finalise(EmailDecl(), None).Success?
  {
    assert EmailDecl().attrs[0].0 == "email";
  }

  /** Listing a declared column that is not indexed: the corrected
      finalisation accepts it, as a field declared in the class, but
      attaches no lookup for it. */
  lemma ListedPlainColumnAccepted()
    ensures var decl := ClassDecl("User", [("email", ColumnAttr(Column(None, TypeClass(UTF8Type), false, false)))], Some(["email"]), None);
      Finalise(decl, None).Success? && Finalise(decl, None).value.lookups == map[]
  {
    var decl := ClassDecl("User", [("email", ColumnAttr(Column(None, TypeClass(UTF8Type), false, false)))], Some(["email"]), None);
    assert decl.attrs[0].0 == "email";
    assert "email" in ColumnNames(decl.attrs);
    assert decl.attrs[..0] == [];
  }

  // ---------------------------------------------------------------------------
  // Names
  // ---------------------------------------------------------------------------

  function LowerChar(c: char): char {
    if 'A' <= c <= 'Z' then (c as int + 32) as char else c
  }

  /** Lower-casing of a class name, over the ASCII letters. */
  function Lower(s: string): (r: string)
    ensures |r| == |s|
    ensures forall i :: 0 <= i < |s| ==> !('A' <= r[i] <= 'Z')
    ensures forall i :: 0 <= i < |s| && !('A' <= s[i] <= 'Z') ==> r[i] == s[i]
    ensures forall i :: 0 <= i < |s| && 'A' <= s[i] <= 'Z' ==> r[i] as int == s[i] as int + 32
  {
    seq(|s|, i requires 0 <= i < |s| => LowerChar(s[i]))
  }

  /** Lower-casing an already lower-cased name changes nothing. */
  lemma LowerIdempotent(s: string)
    ensures Lower(Lower(s)) == Lower(s)
  {
  }

  // ---------------------------------------------------------------------------
  // Base class declaration
  // ---------------------------------------------------------------------------

  const DefaultKeyspace: string := "Keyspace"
  const DefaultHosts: seq<string> := ["localhost:9160"]
  const DefaultName: string := "Model"

  /** The metaclass a base class is created with. */
  datatype Metaclass = MetaModel | MetaTimestampedModel | OtherMetaclass

  datatype Declared = Declared(pools: map<string, Pool>, base: ModelType)

  /** Declares a base class for models: the pool table keeps any pool
      already stored for `keyspace` and otherwise stores a new one, and the
      base class carries the stored pool. */
  function DeclareModel(pools: map<string, Pool>, keyspace: string, hosts: seq<string>,
                        name: string, metaclass: Metaclass): (r: Declared)
    ensures keyspace in r.pools
    ensures keyspace in pools ==> r.pools[keyspace] == pools[keyspace]
    ensures keyspace !in pools ==> r.pools[keyspace] == Pool(keyspace, hosts)
    ensures forall k :: k != keyspace ==> (k in r.pools <==> k in pools)
    ensures forall k :: k != keyspace && k in pools ==> r.pools[k] == pools[k]
    ensures metaclass == MetaModel ==> r.base.Standard?
    ensures metaclass == MetaModel ==> r.base.model.pool == Some(PoolAttr(r.pools[keyspace]))
    ensures metaclass == MetaModel ==> r.base.model.columnFamily == Lower(name) && r.base.model.lookups == map[]
    ensures metaclass == MetaTimestampedModel ==> r.base == Timestamped(name)
    ensures metaclass == OtherMetaclass ==> r.base.NotAModel?
  {
    var pools' := if keyspace in pools then pools else pools[keyspace := Pool(keyspace, hosts)];
    var pool := pools'[keyspace];
    var base :=
      match metaclass
      case MetaModel =>
        (var decl := ClassDecl(name, [("pool", PoolAttr(pool))], None, None);
         Standard(FinaliseAsWritten(decl, None).value))
      case MetaTimestampedModel => Timestamped(name)
      case OtherMetaclass => NotAModel(name);
    Declared(pools', base)
  }

  /** Declaring again for the same keyspace reuses the stored pool, whatever
      hosts are given, and leaves the pool table as it was. */
  lemma {:induction false} DeclareModelReusesPool(pools: map<string, Pool>, keyspace: string,
                                                  hosts1: seq<string>, hosts2: seq<string>,
                                                  name1: string, name2: string, metaclass: Metaclass)
    ensures var first := DeclareModel(pools, keyspace, hosts1, name1, metaclass);
            var second := DeclareModel(first.pools, keyspace, hosts2, name2, metaclass);
            second.pools == first.pools
            && (metaclass == MetaModel ==> second.base.model.pool == first.base.model.pool)
  {
    var first := DeclareModel(pools, keyspace, hosts1, name1, metaclass);
    var second := DeclareModel(first.pools, keyspace, hosts2, name2, metaclass);
    assert second.pools.Keys == first.pools.Keys;
  }

  /** `declare_model()` with every argument left at its default: a standard
      base class named `Model` whose family is `model`, using the pool for
      the default keyspace. */
  function DeclareDefaultModel(pools: map<string, Pool>): (r: Declared)
    ensures DefaultKeyspace in r.pools
    ensures DefaultKeyspace !in pools ==> r.pools[DefaultKeyspace] == Pool("Keyspace", ["localhost:9160"])
    ensures forall k :: k != DefaultKeyspace ==> (k in r.pools <==> k in pools)
    ensures r.base.Standard? && r.base.model.name == "Model" && r.base.model.columnFamily == "model"
    ensures r.base.model.pool == Some(PoolAttr(r.pools[DefaultKeyspace]))
  {
    var r := DeclareModel(pools, DefaultKeyspace, DefaultHosts, DefaultName, MetaModel);
    assert Lower(DefaultName) == "model";
    r
  }
}

=== FILE: results.dfy ===
/** Optional values and success-or-error results shared by the model. */
module Results {

  /** A value that may be absent, like a keyword argument left out or an
      attribute that is not declared. */
  datatype Option<+T> = None | Some(value: T) {

    /** The present value, or `default` when absent. */
    function GetOr(default: T): T {
      match this
      case Some(v) => v
      case None => default
    }
  }

  /** The outcome of an operation that can raise: a value or the error raised. */
  datatype Result<+T, +E> = Success(value: T) | Failure(error: E)
}

=== FILE: store_types.dfy ===
/** The column value types of the wide-column store: the ones types.py
    re-exports under their own names, and any other subclass of the store's
    base column type (the base type itself included). Their behaviour
    belongs to the store's client library; the model only needs to tell
    them apart. */
module StoreTypes {

  datatype StoreType =
    | AsciiType
    | BooleanType
    | BytesType
    | CompositeType
    | CounterColumnType
    | DateType
    | DoubleType
    | FloatType
    | IntegerType
    | LexicalUUIDType
    | LongType
    | TimeUUIDType
    | UTF8Type
    | OtherStoreType(name: string)
}

=== FILE: utils.dfy ===
/** The immutable dictionary of src/cassobjects/utils.py.

    The dictionary is a value: every mutator is rejected with a type error
    and leaves the contents as they were, and `Union` builds a new
    dictionary instead of changing its receiver. */
module ImmutableDicts {
  import opened Results

  /** What a dictionary can be built from: another mapping, or a sequence
      of key/value pairs, where a later pair for the same key wins. */
  datatype Source<K, V> = Mapping(m: map<K, V>) | Pairs(ps: seq<(K, V)>)

  datatype ImmutableDict<K, V> = ImmutableDict(items: map<K, V>)

  datatype DictError =
    | Immutable                   // any attempted mutation
    | TooManyArguments(count: nat) // more than one positional argument to the constructor

  /** The message of the type error a rejected mutation raises. */
  function Message(e: DictError): string {
    match e
    case Immutable => "immutabledict object is immutable"
    case TooManyArguments(n) => "dict expected at most 1 arguments, got " + Decimal(n)
  }

  /** The decimal digits of `n`, most significant first. */
  function Decimal(n: nat): string
    decreases n
  {
    if n < 10 then ["0123456789"[n]] else Decimal(n / 10) + Decimal(n % 10)
  }

  /** The operations that would change a plain dictionary. */
  datatype Mutator<K, V> =
    | SetItem(key: K, value: V)
    | DelItem(key: K)
    | SetAttr(name: string)
    | Clear
    | Pop(key: K)
    | PopItem
    | SetDefault(key: K, default: V)
    | Update(other: Source<K, V>)

  // ---------------------------------------------------------------------------
  // Plain dictionary updates
  // ---------------------------------------------------------------------------

  /** Pair `i` is the last pair for its key. */
  predicate LastPair<K(==), V>(ps: seq<(K, V)>, i: nat)
    requires i < |ps|
  {
    forall j :: i < j < |ps| ==> ps[j].0 != ps[i].0
  }

  /** The keys that occur in `ps`. */
  function PairKeys<K, V>(ps: seq<(K, V)>): set<K> {
    set i | 0 <= i < |ps| :: ps[i].0
  }

  /** Assigns the pairs to `m` one after the other, as a plain dictionary
      update with a pair sequence does. */
  function UpdateWithPairs<K, V>(m: map<K, V>, ps: seq<(K, V)>): map<K, V>
    decreases |ps|
  {
    if |ps| == 0 then m
    else UpdateWithPairs(m[ps[0].0 := ps[0].1], ps[1..])
  }

  /** Updating with pairs keeps every key of `m`, adds the keys of the
      pairs, gives each added key the value of its last pair, and leaves the
      other keys' values alone. */
  lemma {:induction false} UpdateWithPairsExact<K, V>(m: map<K, V>, ps: seq<(K, V)>)
    ensures UpdateWithPairs(m, ps).Keys == m.Keys + PairKeys(ps)
    ensures forall i :: 0 <= i < |ps| && LastPair(ps, i) ==> UpdateWithPairs(m, ps)[ps[i].0] == ps[i].1
    ensures forall k :: k in m && k !in PairKeys(ps) ==> UpdateWithPairs(m, ps)[k] == m[k]
    decreases |ps|
  {
    if |ps| > 0 {
      var m' := m[ps[0].0 := ps[0].1];
      var tail := ps[1..];
      UpdateWithPairsExact(m', tail);
      assert PairKeys(ps) == {ps[0].0} + PairKeys(tail) by {
        forall x | x in PairKeys(ps) ensures x in {ps[0].0} + PairKeys(tail) {
          var i :| 0 <= i < |ps| && ps[i].0 == x;
          if i > 0 { assert tail[i - 1] == ps[i]; }
        }
        forall x | x in PairKeys(tail) ensures x in PairKeys(ps) {
          var i :| 0 <= i < |tail| && tail[i].0 == x;
          assert ps[i + 1] == tail[i];
        }
      }
      forall i | 0 <= i < |ps| && LastPair(ps, i)
        ensures UpdateWithPairs(m, ps)[ps[i].0] == ps[i].1
      {
        if i > 0 {
          assert tail[i - 1] == ps[i];
          assert LastPair(tail, i - 1) by {
            forall j | i - 1 < j < |tail| ensures tail[j].0 != tail[i - 1].0 {
              assert tail[j] == ps[j + 1];
            }
          }
        } else {
          assert ps[0].0 !in PairKeys(tail) by {
            forall j | 0 <= j < |tail| ensures tail[j].0 != ps[0].0 {
              assert tail[j] == ps[j + 1];
            }
          }
        }
      }
    }
  }

  /** Updating with pairs is the same as merging in the dictionary those
      pairs build. */
  lemma {:induction false} UpdateWithPairsIsMerge<K, V>(m: map<K, V>, ps: seq<(K, V)>)
    ensures UpdateWithPairs(m, ps) == m + UpdateWithPairs(map[], ps)
  {
    var built := UpdateWithPairs(map[], ps);
    UpdateWithPairsExact(m, ps);
    UpdateWithPairsExact(map[], ps);
    forall k | k in PairKeys(ps)
      ensures UpdateWithPairs(m, ps)[k] == built[k]
    {
      var i := LastIndexOf(ps, k);
    }
  }

  /** The position of the last pair for a key that occurs. */
  function LastIndexOf<K(==), V>(ps: seq<(K, V)>, k: K): (i: nat)
    requires k in PairKeys(ps)
    ensures i < |ps| && ps[i].0 == k && LastPair(ps, i)
    decreases |ps|
  {
    if ps[|ps| - 1].0 == k then |ps| - 1
    else
      var init := ps[..|ps| - 1];
      assert k in PairKeys(init) by {
        var j :| 0 <= j < |ps| && ps[j].0 == k;
        assert init[j] == ps[j];
      }
      var i := LastIndexOf(init, k);
      assert ps[i] == init[i];
      assert forall j :: i < j < |init| ==> ps[j] == init[j];
      i
  }

  /** The contents a source stands for. */
  function Contents<K, V>(src: Source<K, V>): map<K, V> {
    match src
    case Mapping(m) => m
    case Pairs(ps) => UpdateWithPairs(map[], ps)
  }

  // ---------------------------------------------------------------------------
  // The immutable dictionary
  // ---------------------------------------------------------------------------

  /** The constructor, given its positional arguments: none builds an empty
      dictionary, one builds a dictionary with exactly that source's
      contents, more are rejected. */
  function New<K(==), V>(args: seq<Source<K, V>>): (r: Result<ImmutableDict<K, V>, DictError>)
    ensures r.Success? <==> |args| <= 1
    ensures |args| == 0 ==> r == Success(ImmutableDict(map[]))
    ensures |args| == 1 && args[0].Mapping? ==> r == Success(ImmutableDict(args[0].m))
    ensures |args| == 1 && args[0].Pairs? ==> r.Success? && r.value.items.Keys == PairKeys(args[0].ps)
    ensures |args| == 1 && args[0].Pairs? ==> forall i :: 0 <= i < |args[0].ps| && LastPair(args[0].ps, i) ==> r.value.items[args[0].ps[i].0] == args[0].ps[i].1
    ensures |args| > 1 ==> r == Failure(TooManyArguments(|args|))
  {
    if |args| == 0 then Success(ImmutableDict(map[]))
    else if |args| == 1 then
      (if args[0].Pairs? then UpdateWithPairsExact(map[], args[0].ps); Success(ImmutableDict(Contents(args[0])))
       else Success(ImmutableDict(Contents(args[0]))))
    else Failure(TooManyArguments(|args|))
  }

  /** The outcome of an attempted mutation: the error raised and the
      dictionary afterwards. */
  datatype Attempt<K, V> = Attempt(error: DictError, after: ImmutableDict<K, V>)

  /** Every mutator, item and attribute assignment and item deletion raises
      the immutability type error and leaves the contents unchanged. */
  function Mutate<K, V>(d: ImmutableDict<K, V>, op: Mutator<K, V>): (r: Attempt<K, V>)
    ensures Message(r.error) == "immutabledict object is immutable"
    ensures r.after.items == d.items
  {
    Attempt(Immutable, d)
  }

  /** What pickling records: the positional arguments to give the
      constructor, a single plain copy of the contents. */
  datatype Reduced<K, V> = Reduced(args: seq<Source<K, V>>)

  function Reduce<K, V>(d: ImmutableDict<K, V>): (r: Reduced<K, V>)
    ensures |r.args| == 1
  {
    Reduced([Mapping(d.items)])
  }

  /** Rebuilding from the pickled arguments gives back an equal dictionary. */
  lemma ReduceRoundTrip<K, V>(d: ImmutableDict<K, V>)
    ensures New(Reduce(d).args) == Success(d)
  {
  }

  /** A new dictionary with the receiver's entries and the argument's, the
      argument winning on a shared key. An empty receiver yields a
      dictionary built from the argument alone. */
  function Union<K, V>(d: ImmutableDict<K, V>, other: Source<K, V>): (r: ImmutableDict<K, V>)
    ensures r.items.Keys == d.items.Keys + Contents(other).Keys
    ensures forall k :: k in Contents(other) ==> r.items[k] == Contents(other)[k]
    ensures forall k :: k in d.items && k !in Contents(other) ==> r.items[k] == d.items[k]
    ensures |d.items| == 0 ==> r.items == Contents(other)
  {
    if |d.items| == 0 then New([other]).value
    else
      var copy := New([Mapping(d.items)]).value;
      ImmutableDict(RawUpdate(copy.items, other))
  }

  /** The plain dictionary update `Union` applies to its private copy. */
  function RawUpdate<K, V>(m: map<K, V>, other: Source<K, V>): (r: map<K, V>)
    ensures r == m + Contents(other)
  {
    match other
    case Mapping(o) => m + o
    case Pairs(ps) => UpdateWithPairsIsMerge(m, ps); UpdateWithPairs(m, ps)
  }
}
